=== FILE: README.md ===
# Rate & Tag — a Dafny model of the annotation core

Rate & Tag is a browser extension that lets a user give any web address a
1–5 star rating and a list of free-text tags. The annotations live in the
extension's key-value store under the address. They show up in three places:

- a floating editor widget on ordinary pages (`createRatingUI` in content.js);
- a read-only ` (n*)` suffix next to result titles on a search results page
  (`processTitle` / `runSearchPage` in content.js);
- the popup viewer (popup.js), which groups every rated address by rating and by tag.

This project models that core as pure functions over immutable data and proves
what each part promises. It has these modules:

- **Wrappers**: `Option` and `Result`.
- **Text**: the JavaScript string operations the code relies on.
  - `trim`, using the ECMAScript whitespace and line-terminator set.
  - `split(',')`, which always gives at least one piece.
  - `join`.
  - The UTF-16 code-unit order that `Array.prototype.sort` applies to strings.
  - Insertion into a strictly sorted key list.
- **Codec**: the stored value as `typeof` sees it (number, object, `null`, anything else).
  - `parseData`.
  - The key lookup `res?.[url]`.
  - `saveData`.
- **Tags**: committing the tag input (split, trim, drop empties) and the `", "`-joined prefill text.
- **Widget**: the editor widget as a state machine.
  - State: the working copy of the record, the active marks on the stars and the tag button, and the tag input's visibility and text.
  - Events: star clicks, tag-button clicks, typing, and key presses. Every edit writes the whole record.
- **Scanner**: the title scanner with its "processed" stamp, run again on every mutation batch that adds nodes.
- **Aggregator**: the popup's `loadData`, `renderByRating` and `renderByTags`, plus the composition of the three.

Some effects become parameters:

- The address of a title element is an oracle function (`getResultUrl` is DOM work).
- Whether the extension context is still valid (`chrome.runtime.id`, `chrome.runtime.lastError`) is a boolean.
- The store is a `map` from address to raw value. The popup sees it as a sequence of (address, value) pairs in enumeration order.

Some behaviours of the source are worth stating on their own:

- `parseData` passes a legacy bare number through unchanged as the rating (content.js:13), zero, negative and above-5 values included (`Codec.ParseLegacy`).
- A title is stamped as processed only after its address resolves (content.js:108-110). A title that never resolves is looked at again by every later scan (`Scanner.ScansNeverRepeat`).
- A tag repeated in one record lists that record twice under it (popup.js:84-87, `Aggregator.TagBucketCount`).
- `parseData` reads a stored `null` as unrated (content.js:14-15). The popup's normalisation reads `.rating` of any value whose `typeof` is `"object"`, `null` included (popup.js:29), so a stored `null` throws and the popup renders nothing (`Aggregator.Normalize`, `Aggregator.Popup`).
- A rating above 5 passes the `rating > 0` filter (popup.js:34-36) but no rating group is built for it (popup.js:50). Such an entry appears in the tag view and not in the rating view (`Aggregator.RatingViewSize`).

## Model

| member | source | states |
|---|---|---|
| Codec.ParseStored | content.js:12-23 | reading back the object the editor writes through `saveData` gives exactly the record that was written |
| Codec.ParseLegacy | content.js:13 | a legacy bare number reads as that rating with no tags, unclamped, the same as a stored object with that rating and no tags |
| Codec.ParseDefaults | content.js:14-15 | a missing or falsy `rating` defaults to 0 and missing `tags` to the empty list; `null` and any non-number non-object read as the unrated record |
| Codec.SaveData | content.js:18-23 | while the context is alive, the whole record object is stored under the key and reads back as the record; after invalidation the store is unchanged; no other key ever changes |
| Text.Trim | content.js:79 | the result has no leading or trailing whitespace |
| Text.TrimFramed | content.js:79 | the trimmed string is an infix of the input with only whitespace before and after it |
| Text.TrimUnique | content.js:79 | any trimmed infix with only whitespace around it is exactly what `trim` returns |
| Text.TrimAfterSpace | content.js:79 | trimming whitespace followed by an already trimmed string gives that string |
| Text.Split | content.js:79 | splitting on a separator gives at least one piece, no piece holds the separator, and joining the pieces with it gives the input back |
| Text.JoinSplit | content.js:70-79 | joining separator-free pieces with the separator and splitting the result again gives the pieces back |
| Text.SplitAtFirst | content.js:79 | the text before the first separator is the first piece, and the rest splits independently |
| Text.StrLessTransitive | popup.js:91 | the default string sort order is transitive |
| Text.StrLessTotal | popup.js:91 | any two different strings are ordered one way or the other |
| Text.Insert | popup.js:85 | adding a key to a strictly ascending key list keeps it strictly ascending and adds exactly that key |
| Text.StrictlySortedUnique | popup.js:91 | two strictly ascending lists holding the same strings are equal, so the sorted key list is determined by the key set |
| Tags.CleanTokens | content.js:79 | every tag kept is non-empty, trimmed and comma-free, and there are never more tags than pieces |
| Tags.CleanTokensKeeps | content.js:79 | every piece that is not blank survives, trimmed |
| Tags.CleanTokensFrom | content.js:79 | every tag kept is some piece, trimmed |
| Tags.CleanTokensAppend | content.js:79 | cleaning works piece by piece, keeping the pieces' order |
| Tags.ParseTags | content.js:79 | a commit yields only valid tags |
| Tags.TagsRoundTrip | content.js:70-80 | committing the `", "`-joined text of a valid tag list gives back exactly that list, the empty list included |
| Tags.ParseTagsIdempotent | content.js:70-80 | committing, reopening and committing again yields the same tags |
| Widget.Mount | content.js:34-70 | a freshly built widget holds the fetched record, marks agree with it, the input is hidden and prefilled with the `", "`-joined tags |
| Widget.Step | content.js:41-86 | every action keeps the marks consistent with the working copy, issues at most one write, and any write carries the whole new record for the bound address |
| Widget.StarToggle | content.js:41-57 | clicking star k unrates when the rating is k and rates k otherwise, tags untouched; afterwards only the star equal to the rating is marked |
| Widget.StarTwice | content.js:45-51 | two clicks on the same star restore the rating if it was k and leave it 0 otherwise |
| Widget.CommitReplacesTags | content.js:77-86 | Enter replaces the tags with the cleaned tokens of the input, keeps the rating, hides the input, writes the record, and marks the tag button iff tags remain |
| Widget.MountCommitRoundTrip | content.js:70-81 | opening the tag input and pressing Enter in it untouched writes back the same record and hides the input |
| Widget.MarksAfterRun | content.js:39-63 | after the widget is built and after any sequence of clicks, typing and key presses, star k is marked exactly when the working rating is k, and the tag button exactly when there are tags |
| Widget.Run | content.js:41-86 | over any action sequence the marks stay consistent, all writes go to the bound address, and the last write carries the final working copy |
| Widget.ApplyWrites | content.js:18-23 | with a dead context a series of saves leaves the store unchanged; while alive the last address written reads back as its last record; unwritten addresses are unchanged |
| Widget.InvalidatedMidSession | content.js:19 | once the context is invalidated part-way through a session, the later saves are lost and the store is what the earlier saves left |
| Widget.StoreReflectsWidget | content.js:41-86 | while the extension context stays valid for the whole session and this widget is the only writer, after an editing session with at least one write the store holds the widget's final record for its address and nothing else changed |
| Scanner.UnratedTitleStampedBare | content.js:110-117 | a resolved, unstamped title whose address has nothing stored, or whose record reads as unrated, is stamped and gets no suffix |
| Scanner.ProcessTitle | content.js:105-120 | a stamped or unresolvable element is skipped; an element is stamped iff unstamped and resolved; a suffix is added iff it is also alive and its stored rating is positive; no element gets a second suffix |
| Scanner.Scan | content.js:142-144 | a scan stamps exactly the resolvable titles, only appends suffixes, and only for titles not stamped before |
| Scanner.ScanShowsSuffix | content.js:96-118 | while the context is alive, a scan shows a suffix for every title not stamped before whose address resolves to a positive stored rating, and the suffix carries that rating |
| Scanner.ScanSuffixValues | content.js:96-118 | every suffix a scan adds belongs to a resolved title read while the context was alive, and shows the rating stored for its address |
| Scanner.ScanSettled | content.js:106-108 | a scan over titles that are all stamped or unresolvable changes nothing |
| Scanner.ScanIdempotent | content.js:142-144 | scanning the same titles twice has the same effect as scanning once |
| Scanner.ScanAll | content.js:146-158 | across the initial scan and every mutation-triggered rescan, stamps and suffixes only accumulate and the page stays well formed |
| Scanner.ScansNeverRepeat | content.js:105-120 | over any number of rescans each element has at most one suffix, only for a positive rating, and an element that never resolves is never stamped |
| Aggregator.Normalize | popup.js:24-33 | the popup's normalisation fails exactly on `null` and otherwise agrees with `parseData` |
| Aggregator.LoadData | popup.js:19-37 | loading fails iff some stored value is `null`; otherwise it gives the `parseData` readings rated above 0, in store order |
| Aggregator.RatedMembers | popup.js:34-36 | a stored pair survives iff its rating is above 0, whatever its tags; every survivor is rated above 0 |
| Aggregator.RatedAppend | popup.js:24-37 | loading keeps store order: loading a concatenation concatenates the results |
| Aggregator.RatingBucket | popup.js:48-51 | a rating group holds only entries of the input with that rating |
| Aggregator.RatingBucketCount | popup.js:49-51 | every entry with rating r is in group r exactly as often as in the input, and in no other group |
| Aggregator.RatingBucketAppend | popup.js:49-51 | a rating group keeps input order: the bucket of a concatenation is the concatenation of the buckets |
| Aggregator.RatingGroupsFrom | popup.js:53-55 | every group emitted is the non-empty bucket of a rating in range |
| Aggregator.ByRating | popup.js:48-55 | groups come out 5 down to 1, each non-empty and equal to that rating's bucket, and the group for k is present iff some entry has rating k |
| Aggregator.RatingViewPlacement | popup.js:48-55 | an entry rated 1..5 is in exactly one rating group, its own; other ratings have no group |
| Aggregator.RatingViewSize | popup.js:48-55 | the rating view lists exactly as many items as there are entries rated 1..5 |
| Aggregator.InsertAll | popup.js:84-86 | after visiting an entry's tags the key list is strictly ascending and holds the old keys plus those tags |
| Aggregator.GroupKeys | popup.js:80-89 | after visiting all entries the key list is strictly ascending and holds exactly the tags some entry carries |
| Aggregator.TagKeys | popup.js:91 | the sorted tag keys are strictly ascending and are exactly the tags carried by some entry |
| Aggregator.TagKeysOrderFree | popup.js:91 | the key list depends only on which tags occur, not on the order entries or tags are visited in |
| Aggregator.TagBucket | popup.js:84-87 | a tag group holds only input entries carrying that tag |
| Aggregator.TagBucketCount | popup.js:84-87 | an entry is listed under tag t once per occurrence of t in its tags, times its multiplicity in the input |
| Aggregator.TagBucketAppend | popup.js:84-87 | a tag group keeps input order: the bucket of a concatenation is the concatenation of the buckets |
| Aggregator.UntaggedBucket | popup.js:81-82 | the Untagged list holds exactly the input entries without tags, with their multiplicities |
| Aggregator.UntaggedBucketAppend | popup.js:81-82 | the Untagged list keeps input order: the list for a concatenation is the concatenation of the lists |
| Aggregator.TagGroups | popup.js:93-94 | one group per key, in key order, holding that key's bucket |
| Aggregator.ByTags | popup.js:77-124 | tag groups ascend, Untagged comes last, no group is empty, each group is its bucket; a tag's group is present iff some entry carries it, the Untagged group iff some entry has no tags |
| Aggregator.TagBucketsNonEmpty | popup.js:84-86 | a tag that some entry carries has a non-empty group |
| Aggregator.UntaggedNonEmpty | popup.js:110 | the Untagged list is non-empty iff some entry has no tags |
| Aggregator.TagViewPlacement | popup.js:80-89 | every loaded entry appears in some group of the tag view |
| Aggregator.TagViewSize | popup.js:80-89 | the tag view lists each entry once per tag it carries, or once if it has none |
| Aggregator.Popup | popup.js:19-41 | the popup shows both views of the loaded entries, and nothing at all iff some stored value is `null` |
| Aggregator.PopupSources | popup.js:24-40 | everything either view lists is a stored pair read as `parseData` reads it, rated above 0 |
| Aggregator.PopupRatingComplete | popup.js:34-55 | every stored pair rated 1..5 is listed in the rating view |
| Aggregator.PopupTagComplete | popup.js:34-89 | every stored pair rated above 0 is listed in the tag view |
| Aggregator.WorkedExample | popup.js:19-124 | the store a→3, b→{5, [x, y]}, c→{0, [z]} shows [(5, [b]), (3, [a])] by rating and [(x, [b]), (y, [b]), (Untagged, [a])] by tag |

## Left out

- Codec.Parse: carries no contract of its own. What it promises is stated by `Codec.ParseStored`, `Codec.ParseLegacy` and `Codec.ParseDefaults` and used by every later module.
- Scanner.Scan: states which elements are stamped and that new suffixes belong to titles not stamped before. Which titles get a suffix and what it shows are stated by `Scanner.ScanShowsSuffix` and `Scanner.ScanSuffixValues`.
- Stored ratings are integers and stored tags are string lists. A non-integer rating (for example `2.5`, which `renderByRating` silently drops), a string rating, or a `tags` field that is not an array is not modelled.
- Tag names that collide with properties inherited by plain objects (for example `constructor` or `__proto__`) are not modelled. In the source, `groups[tag]` finds the inherited property instead of a list. The model treats every tag name alike.
- Browser storage transport is not modelled:
  - the asynchronous callbacks;
  - the `try`/`catch` around store calls;
  - `chrome.runtime.lastError`.

  They are folded into one `alive` flag per save (`Codec.SaveData`), per series of saves (`Widget.ApplyWrites`) and per scan pass (`Scanner.Host`). An invalidation in the middle of a session is the composition of a live series and a dead one (`Widget.InvalidatedMidSession`).
- Text.StrLess: a Dafny `char` cannot hold an unpaired surrogate, which a JavaScript string can. The order is the UTF-16 code-unit order only for well-formed strings.
- The store's enumeration order (`Object.entries`) is an input: the popup receives the store as a sequence of pairs.
- `getResultUrl` and the `h3` selector are DOM queries. Address resolution is an oracle parameter, and the title elements of each pass are given as a sequence.
- `init`, the `MutationObserver` wiring, the search-page URL test and the `load`/`DOMContentLoaded` listeners are not modelled. They only decide when scans run. A run is modelled as a sequence of passes (`Scanner.ScanAll`), and the observer's disconnect is not modelled.
- `injectFloatingWidget`'s singleton check (content.js:123) is not modelled. The check runs before an asynchronous store read, and `init` runs once at content.js:165 or 167 and again on `load` at content.js:169, so two widgets bound to the same address can be mounted and both write to it. `Widget.StoreReflectsWidget` holds only while one widget is the only writer.
- The DOM construction of the widget is not modelled. Neither are input focus, click propagation, the popup's tab switching, `createItemElement`, or header texts and CSS classes.
- The textual form of the read-only suffix (`" (n*)"`) is not modelled. A suffix is modelled as the element and the rating it shows.

=== FILE: aggregator.dfy ===
/**
 * The viewer of popup.js: every stored value is normalised, the rated ones
 * are kept, and they are grouped twice — by rating (5 down to 1) and by tag
 * (ascending, with an "Untagged" group last).
 */
module Aggregator {
  import opened Wrappers
  import opened Text
  import opened Codec

  /** A normalised store entry: address, rating and tags. */
  datatype Entry = Entry(url: string, rating: int, tags: seq<string>)

  /** The entry content.js's `parseData` would give for a stored pair. */
  function AsEntry(url: string, raw: Raw): Entry {
    Entry(url, Parse(raw).rating, Parse(raw).tags)
  }

  /**
   * The normalisation inside `loadData`. It agrees with `parseData` on every
   * value except `null`, on which reading `value.rating` raises a TypeError.
   */
  function Normalize(url: string, raw: Raw): (r: Result<Entry, string>)
    ensures r.Failure? <==> raw.Null?
    ensures !raw.Null? ==> r == Success(AsEntry(url, raw))
  {
    match raw
    case Num(n) => Success(Entry(url, n, []))
    case Obj(rating, tags) => Success(Entry(url, rating.GetOr(0), tags.GetOr([])))
    case Null => Failure("TypeError: cannot read property 'rating' of null")
    case Other => Success(Entry(url, 0, []))
  }

  /** Some stored value is `null`. */
  predicate HasNull(items: seq<(string, Raw)>) {
    exists i :: 0 <= i < |items| && items[i].1.Null?
  }

  /**
   * The rated entries of the store, read the way content.js reads them
   * (`parseData`), in store order.
   */
  function Rated(items: seq<(string, Raw)>): seq<Entry>
    decreases |items|
  {
    if |items| == 0 then []
    else
      var e := AsEntry(items[0].0, items[0].1);
      (if e.rating > 0 then [e] else []) + Rated(items[1..])
  }

  /**
   * `loadData`: normalise every stored pair in store order and keep those
   * rated above 0. A `null` value aborts the whole callback, so nothing is
   * shown at all; otherwise the result is exactly what `parseData` and the
   * `rating > 0` filter give.
   */
  function LoadData(items: seq<(string, Raw)>): (r: Result<seq<Entry>, string>)
    ensures r.Failure? <==> HasNull(items)
    ensures r.Success? ==> r.value == Rated(items)
    decreases |items|
  {
    if |items| == 0 then Success([])
    else
      match Normalize(items[0].0, items[0].1)
      case Failure(err) => Failure(err)
      case Success(entry) =>
        match LoadData(items[1..])
        case Failure(err) => Failure(err)
        case Success(rest) =>
          Success(if entry.rating > 0 then [entry] + rest else rest)
  }

  /** Store order is kept: reading a concatenation concatenates the readings. */
  lemma {:induction false} RatedAppend(a: seq<(string, Raw)>, b: seq<(string, Raw)>)
    ensures Rated(a + b) == Rated(a) + Rated(b)
    decreases |a|
  {
    if |a| == 0 {
      assert a + b == b;
    } else {
      assert (a + b)[1..] == a[1..] + b;
      assert (a + b)[0] == a[0];
      RatedAppend(a[1..], b);
    }
  }

  /**
   * Exactly the stored pairs rated above 0 survive: an entry with rating 0
   * (or less) is dropped even when it has tags.
   */
  lemma {:induction false} RatedMembers(items: seq<(string, Raw)>)
    ensures forall i :: 0 <= i < |items| ==>
              (AsEntry(items[i].0, items[i].1) in Rated(items) <==> Parse(items[i].1).rating > 0)
    ensures forall e :: e in Rated(items) ==> e.rating > 0
    decreases |items|
  {
    if |items| > 0 {
      RatedMembers(items[1..]);
      forall i | 0 < i < |items| ensures items[i] == items[1..][i - 1] { }
    }
  }

  // ----- By rating -----

  datatype RatingGroup = RatingGroup(rating: int, items: seq<Entry>)

  /** The entries rated exactly `r`, in input order (`groups[r].push(item)`). */
  function RatingBucket(data: seq<Entry>, r: int): (b: seq<Entry>)
    ensures forall e :: e in b ==> e.rating == r && e in data
    decreases |data|
  {
    if |data| == 0 then []
    else (if data[0].rating == r then [data[0]] else []) + RatingBucket(data[1..], r)
  }

  /** Every entry rated `r` is in its bucket as often as in the input. */
  lemma {:induction false} RatingBucketCount(data: seq<Entry>, r: int, e: Entry)
    ensures multiset(RatingBucket(data, r))[e] == if e.rating == r then multiset(data)[e] else 0
    decreases |data|
  {
    if |data| > 0 {
      RatingBucketCount(data[1..], r, e);
      assert data == [data[0]] + data[1..];
    }
  }

  /** Every group is a non-empty bucket for a rating in 1..`r`. */
  predicate BucketsUpTo(data: seq<Entry>, v: seq<RatingGroup>, r: int) {
    forall i :: 0 <= i < |v| ==>
      1 <= v[i].rating <= r && |v[i].items| > 0 && v[i].items == RatingBucket(data, v[i].rating)
  }

  /** Ratings strictly decrease along the groups. */
  predicate Descending(v: seq<RatingGroup>) {
    forall i, j :: 0 <= i < j < |v| ==> v[i].rating > v[j].rating
  }

  /** The buckets for ratings `r` down to 1, skipping empty ones. */
  function RatingGroupsFrom(data: seq<Entry>, r: int): (v: seq<RatingGroup>)
    requires 0 <= r <= 5
    ensures BucketsUpTo(data, v, r)
    decreases r
  {
    if r == 0 then []
    else
      var b := RatingBucket(data, r);
      var rest := RatingGroupsFrom(data, r - 1);
      if |b| == 0 then rest
      else
        var v := [RatingGroup(r, b)] + rest;
        assert forall i :: 1 <= i < |v| ==> v[i] == rest[i - 1];
        v
  }

  lemma {:induction false} RatingGroupsDescending(data: seq<Entry>, r: int)
    requires 0 <= r <= 5
    ensures Descending(RatingGroupsFrom(data, r))
    decreases r
  {
    if r > 0 {
      RatingGroupsDescending(data, r - 1);
      var b := RatingBucket(data, r);
      var rest := RatingGroupsFrom(data, r - 1);
      if |b| > 0 {
        RatingsBelow(data, r - 1);
        var v := [RatingGroup(r, b)] + rest;
        forall i, j | 0 <= i < j < |v| ensures v[i].rating > v[j].rating {
          assert v[j] == rest[j - 1] && rest[j - 1] in rest;
          if i > 0 {
            assert v[i] == rest[i - 1];
          }
        }
        assert RatingGroupsFrom(data, r) == v;
      }
    }
  }

  lemma RatingGroupsComplete(data: seq<Entry>, r: int)
    requires 0 <= r <= 5
    ensures forall k :: 1 <= k <= r ==>
              (RatingGroup(k, RatingBucket(data, k)) in RatingGroupsFrom(data, r) <==> |RatingBucket(data, k)| > 0)
  {
    forall k | 1 <= k <= r
      ensures RatingGroup(k, RatingBucket(data, k)) in RatingGroupsFrom(data, r) <==> |RatingBucket(data, k)| > 0
    {
      RatingGroupPresent(data, r, k);
    }
  }

  lemma {:induction false} RatingGroupPresent(data: seq<Entry>, r: int, k: int)
    requires 1 <= k <= r <= 5
    ensures RatingGroup(k, RatingBucket(data, k)) in RatingGroupsFrom(data, r) <==> |RatingBucket(data, k)| > 0
    decreases r
  {
    var g := RatingGroup(k, RatingBucket(data, k));
    var b := RatingBucket(data, r);
    var rest := RatingGroupsFrom(data, r - 1);
    if k == r {
      assert g !in rest by {
        RatingsBelow(data, r - 1);
      }
    } else {
      RatingGroupPresent(data, r - 1, k);
    }
    if |b| > 0 {
      assert RatingGroupsFrom(data, r) == [RatingGroup(r, b)] + rest;
    }
  }

  /** A rating group keeps input order: the bucket of a concatenation concatenates the buckets. */
  lemma {:induction false} RatingBucketAppend(a: seq<Entry>, b: seq<Entry>, r: int)
    ensures RatingBucket(a + b, r) == RatingBucket(a, r) + RatingBucket(b, r)
    decreases |a|
  {
    if |a| == 0 {
      assert a + b == b;
    } else {
      assert (a + b)[1..] == a[1..] + b;
      RatingBucketAppend(a[1..], b, r);
    }
  }

  /** Every group for ratings up to `r` has a rating of at most `r`. */
  lemma RatingsBelow(data: seq<Entry>, r: int)
    requires 0 <= r <= 5
    ensures forall g :: g in RatingGroupsFrom(data, r) ==> g.rating <= r
  {
    var v := RatingGroupsFrom(data, r);
    assert BucketsUpTo(data, v, r);
    forall g | g in v ensures g.rating <= r {
      var i :| 0 <= i < |v| && v[i] == g;
    }
  }

  /**
   * `renderByRating`: one group per rating in 5, 4, 3, 2, 1 order, each holding
   * that rating's entries in input order; ratings nobody has are left out.
   */
  function ByRating(data: seq<Entry>): (v: seq<RatingGroup>)
    ensures BucketsUpTo(data, v, 5)
    ensures Descending(v)
    ensures forall k :: 1 <= k <= 5 ==> (RatingGroup(k, RatingBucket(data, k)) in v <==> |RatingBucket(data, k)| > 0)
  {
    RatingGroupsDescending(data, 5);
    RatingGroupsComplete(data, 5);
    RatingGroupsFrom(data, 5)
  }

  /**
   * An entry rated 1..5 sits in exactly one rating group, the one for its
   * rating; an entry with any other rating sits in none.
   */
  lemma RatingViewPlacement(data: seq<Entry>, e: Entry)
    requires e in data
    ensures var v := ByRating(data);
            forall i :: 0 <= i < |v| ==> (e in v[i].items <==> v[i].rating == e.rating)
    ensures var v := ByRating(data);
            (exists i :: 0 <= i < |v| && v[i].rating == e.rating) <==> 1 <= e.rating <= 5
  {
    var v := ByRating(data);
    assert multiset(data)[e] > 0;
    forall i | 0 <= i < |v| ensures e in v[i].items <==> v[i].rating == e.rating {
      RatingBucketCount(data, v[i].rating, e);
    }
    if 1 <= e.rating <= 5 {
      RatingBucketCount(data, e.rating, e);
      assert multiset(RatingBucket(data, e.rating))[e] > 0;
      assert |RatingBucket(data, e.rating)| > 0;
    }
  }

  // ----- By tag -----

  /** A tag group's heading: a tag, or the reserved group of entries without tags. */
  datatype Label = Tag(name: string) | Untagged

  datatype TagGroup = TagGroup(heading: Label, items: seq<Entry>)

  /** Some entry carries tag `t`. */
  predicate Mentions(data: seq<Entry>, t: string) {
    exists e :: e in data && t in e.tags
  }

  /** Adds every tag of one entry to the sorted key list. */
  function InsertAll(keys: seq<string>, tags: seq<string>): (r: seq<string>)
    requires StrictlySorted(keys)
    ensures StrictlySorted(r)
    ensures forall x :: x in r <==> x in keys || x in tags
    decreases |tags|
  {
    if |tags| == 0 then keys
    else
      var r := InsertAll(Insert(keys, tags[0]), tags[1..]);
      assert forall x :: x in tags <==> x == tags[0] || x in tags[1..];
      r
  }

  /** The keys of `groups` after visiting the entries in order, already sorted. */
  function GroupKeys(keys: seq<string>, data: seq<Entry>): (r: seq<string>)
    requires StrictlySorted(keys)
    ensures StrictlySorted(r)
    ensures forall x :: x in r <==> x in keys || Mentions(data, x)
    decreases |data|
  {
    if |data| == 0 then keys
    else
      var r := GroupKeys(InsertAll(keys, data[0].tags), data[1..]);
      assert forall x :: Mentions(data, x) <==> x in data[0].tags || Mentions(data[1..], x) by {
        forall x ensures Mentions(data, x) <==> x in data[0].tags || Mentions(data[1..], x) {
          if Mentions(data, x) {
            var e :| e in data && x in e.tags;
            if e != data[0] {
              assert e in data[1..];
            }
          }
          if Mentions(data[1..], x) {
            var e :| e in data[1..] && x in e.tags;
            assert e in data;
          }
        }
      }
      r
  }

  /** `Object.keys(groups).sort()`: every tag carried by some entry, once, ascending. */
  function TagKeys(data: seq<Entry>): (r: seq<string>)
    ensures StrictlySorted(r)
    ensures forall x :: x in r <==> Mentions(data, x)
  {
    GroupKeys([], data)
  }

  /**
   * The tag groups come out in the same order whatever order the entries,
   * and the tags within them, were visited in: only which tags occur matters.
   */
  lemma TagKeysOrderFree(d1: seq<Entry>, d2: seq<Entry>)
    requires forall t :: Mentions(d1, t) <==> Mentions(d2, t)
    ensures TagKeys(d1) == TagKeys(d2)
  {
    StrictlySortedUnique(TagKeys(d1), TagKeys(d2));
  }

  /** `n` copies of `e`. */
  function Repeat(e: Entry, n: nat): (s: seq<Entry>)
    ensures |s| == n
    ensures forall x :: x in s ==> x == e
    decreases n
  {
    if n == 0 then [] else [e] + Repeat(e, n - 1)
  }

  lemma {:induction false} RepeatCount(e: Entry, n: nat, x: Entry)
    ensures multiset(Repeat(e, n))[x] == if x == e then n else 0
    decreases n
  {
    if n > 0 {
      RepeatCount(e, n - 1, x);
    }
  }

  /**
   * The group for tag `t` (`groups[tag].push(item)` once per occurrence of
   * `t` in an entry's tags), in input order.
   */
  function TagBucket(data: seq<Entry>, t: string): (b: seq<Entry>)
    ensures forall e :: e in b ==> t in e.tags && e in data
    decreases |data|
  {
    if |data| == 0 then []
    else
      var n := multiset(data[0].tags)[t];
      assert n > 0 ==> t in data[0].tags;
      Repeat(data[0], n) + TagBucket(data[1..], t)
  }

  /**
   * An entry is listed under tag `t` once per occurrence of `t` in its tags
   * (and once more for every further copy of the entry in the input).
   */
  lemma {:induction false} TagBucketCount(data: seq<Entry>, t: string, e: Entry)
    ensures multiset(TagBucket(data, t))[e] == multiset(data)[e] * multiset(e.tags)[t]
    decreases |data|
  {
    if |data| > 0 {
      var n := multiset(e.tags)[t];
      TagBucketCount(data[1..], t, e);
      TagBucketStep(data, t, e);
      CountStep(data, e);
      Distribute(data[0] == e, if data[0] == e then n else 0, multiset(data)[e], multiset(data[1..])[e], n);
    }
  }

  /** The first entry contributes its own occurrences of `t` to the bucket of `t`. */
  lemma TagBucketStep(data: seq<Entry>, t: string, e: Entry)
    requires |data| > 0
    ensures multiset(TagBucket(data, t))[e]
            == (if data[0] == e then multiset(e.tags)[t] else 0) + multiset(TagBucket(data[1..], t))[e]
  {
    var k := multiset(data[0].tags)[t];
    RepeatCount(data[0], k, e);
    assert TagBucket(data, t) == Repeat(data[0], k) + TagBucket(data[1..], t);
  }

  lemma CountStep(data: seq<Entry>, e: Entry)
    requires |data| > 0
    ensures multiset(data)[e] == (if data[0] == e then 1 else 0) + multiset(data[1..])[e]
  {
    assert data == [data[0]] + data[1..];
  }

  lemma Distribute(same: bool, here: int, total: int, m: int, n: int)
    requires here == if same then n else 0
    requires total == (if same then 1 else 0) + m
    ensures here + m * n == total * n
  {
    if same {
      assert (m + 1) * n == m * n + n;
    }
  }

  lemma PositiveProduct(a: int, b: int)
    requires a > 0 && b > 0
    ensures a * b > 0
  {
  }

  /** A tag group keeps input order: the bucket of a concatenation concatenates the buckets. */
  lemma {:induction false} TagBucketAppend(a: seq<Entry>, b: seq<Entry>, t: string)
    ensures TagBucket(a + b, t) == TagBucket(a, t) + TagBucket(b, t)
    decreases |a|
  {
    if |a| == 0 {
      assert a + b == b;
    } else {
      assert (a + b)[1..] == a[1..] + b;
      TagBucketAppend(a[1..], b, t);
    }
  }

  /** The entries with no tags, in input order. */
  function UntaggedBucket(data: seq<Entry>): (b: seq<Entry>)
    ensures forall e :: e in b ==> |e.tags| == 0
    ensures forall e :: multiset(b)[e] == if |e.tags| == 0 then multiset(data)[e] else 0
    decreases |data|
  {
    if |data| == 0 then []
    else
      assert data == [data[0]] + data[1..];
      (if |data[0].tags| == 0 then [data[0]] else []) + UntaggedBucket(data[1..])
  }

  /** The Untagged group keeps input order: the bucket of a concatenation concatenates the buckets. */
  lemma {:induction false} UntaggedBucketAppend(a: seq<Entry>, b: seq<Entry>)
    ensures UntaggedBucket(a + b) == UntaggedBucket(a) + UntaggedBucket(b)
    decreases |a|
  {
    if |a| == 0 {
      assert a + b == b;
    } else {
      assert (a + b)[1..] == a[1..] + b;
      UntaggedBucketAppend(a[1..], b);
    }
  }

  /** One group per key, in key order. */
  function TagGroups(data: seq<Entry>, keys: seq<string>): (g: seq<TagGroup>)
    ensures |g| == |keys|
    ensures forall i :: 0 <= i < |g| ==> g[i] == TagGroup(Tag(keys[i]), TagBucket(data, keys[i]))
    decreases |keys|
  {
    if |keys| == 0 then []
    else [TagGroup(Tag(keys[0]), TagBucket(data, keys[0]))] + TagGroups(data, keys[1..])
  }

  /** No group is shown with an empty list. */
  predicate NoEmptyGroup(v: seq<TagGroup>) {
    forall i :: 0 <= i < |v| ==> |v[i].items| > 0
  }

  /** Tag groups in strictly ascending tag order, and nothing after an Untagged group. */
  predicate TagsAscendingUntaggedLast(v: seq<TagGroup>) {
    forall i, j :: 0 <= i < j < |v| ==>
      v[i].heading.Tag? && (v[j].heading.Tag? ==> StrLess(v[i].heading.name, v[j].heading.name))
  }

  /** Each group lists exactly its bucket. */
  predicate GroupsAreBuckets(data: seq<Entry>, v: seq<TagGroup>) {
    forall i :: 0 <= i < |v| ==>
      v[i].items == if v[i].heading.Tag? then TagBucket(data, v[i].heading.name) else UntaggedBucket(data)
  }

  /** The Untagged group, when some entry has no tags. */
  function UntaggedGroups(data: seq<Entry>): seq<TagGroup> {
    var untagged := UntaggedBucket(data);
    if |untagged| > 0 then [TagGroup(Untagged, untagged)] else []
  }

  /**
   * `renderByTags`: the tag groups in ascending tag order, then the Untagged
   * group when some entry has no tags; no group is empty.
   */
  function ByTags(data: seq<Entry>): (v: seq<TagGroup>)
    ensures NoEmptyGroup(v)
    ensures TagsAscendingUntaggedLast(v)
    ensures GroupsAreBuckets(data, v)
    ensures forall t :: TagGroup(Tag(t), TagBucket(data, t)) in v <==> Mentions(data, t)
    ensures TagGroup(Untagged, UntaggedBucket(data)) in v <==> exists e :: e in data && |e.tags| == 0
  {
    ByTagsShape(data);
    TagGroups(data, TagKeys(data)) + UntaggedGroups(data)
  }

  /** The tag view before and after the Untagged group is appended, position by position. */
  lemma TagViewIndex(data: seq<Entry>)
    ensures var keys := TagKeys(data);
            var v := TagGroups(data, keys) + UntaggedGroups(data);
            && |v| == |keys| + |UntaggedGroups(data)|
            && (forall i :: 0 <= i < |keys| ==> v[i] == TagGroup(Tag(keys[i]), TagBucket(data, keys[i])))
            && (forall i :: |keys| <= i < |v| ==> v[i] == TagGroup(Untagged, UntaggedBucket(data)))
  {
  }

  lemma ByTagsShape(data: seq<Entry>)
    ensures var v := TagGroups(data, TagKeys(data)) + UntaggedGroups(data);
            && NoEmptyGroup(v)
            && TagsAscendingUntaggedLast(v)
            && GroupsAreBuckets(data, v)
            && (forall t :: TagGroup(Tag(t), TagBucket(data, t)) in v <==> Mentions(data, t))
            && (TagGroup(Untagged, UntaggedBucket(data)) in v <==> exists e :: e in data && |e.tags| == 0)
  {
    TagViewIndex(data);
    TagViewNonEmpty(data);
    TagViewOrdered(data);
    TagViewComplete(data);
  }

  lemma TagViewNonEmpty(data: seq<Entry>)
    ensures NoEmptyGroup(TagGroups(data, TagKeys(data)) + UntaggedGroups(data))
  {
    TagViewIndex(data);
    TagBucketsNonEmpty(data);
    var keys := TagKeys(data);
    var v := TagGroups(data, keys) + UntaggedGroups(data);
    forall i | 0 <= i < |v| ensures |v[i].items| > 0 {
      if i < |keys| {
        assert keys[i] in keys;
      }
    }
  }

  lemma TagViewOrdered(data: seq<Entry>)
    ensures TagsAscendingUntaggedLast(TagGroups(data, TagKeys(data)) + UntaggedGroups(data))
  {
    TagViewIndex(data);
  }

  lemma TagViewComplete(data: seq<Entry>)
    ensures var v := TagGroups(data, TagKeys(data)) + UntaggedGroups(data);
            && (forall t :: TagGroup(Tag(t), TagBucket(data, t)) in v <==> Mentions(data, t))
            && (TagGroup(Untagged, UntaggedBucket(data)) in v <==> exists e :: e in data && |e.tags| == 0)
  {
    TagViewIndex(data);
    UntaggedNonEmpty(data);
    var keys := TagKeys(data);
    var v := TagGroups(data, keys) + UntaggedGroups(data);
    forall t ensures TagGroup(Tag(t), TagBucket(data, t)) in v <==> Mentions(data, t) {
      if Mentions(data, t) {
        var i :| 0 <= i < |keys| && keys[i] == t;
        assert v[i] == TagGroup(Tag(t), TagBucket(data, t));
      }
    }
    if |UntaggedGroups(data)| > 0 {
      assert v[|keys|] == TagGroup(Untagged, UntaggedBucket(data));
    }
  }

  /** A tag somebody carries has a non-empty group. */
  lemma TagBucketsNonEmpty(data: seq<Entry>)
    ensures forall t :: Mentions(data, t) ==> |TagBucket(data, t)| > 0
  {
    forall t | Mentions(data, t) ensures |TagBucket(data, t)| > 0 {
      var e :| e in data && t in e.tags;
      TagBucketCount(data, t, e);
      PositiveProduct(multiset(data)[e], multiset(e.tags)[t]);
      assert e in TagBucket(data, t);
    }
  }

  /** The Untagged group is non-empty exactly when some entry has no tags. */
  lemma UntaggedNonEmpty(data: seq<Entry>)
    ensures |UntaggedBucket(data)| > 0 <==> exists e :: e in data && |e.tags| == 0
  {
    if exists e :: e in data && |e.tags| == 0 {
      var e :| e in data && |e.tags| == 0;
      assert multiset(UntaggedBucket(data))[e] > 0;
    }
    if |UntaggedBucket(data)| > 0 {
      var e := UntaggedBucket(data)[0];
      assert multiset(UntaggedBucket(data))[e] > 0;
    }
  }

  // ----- Sizes -----

  /** The number of list items a view shows. */
  function TotalItems(v: seq<TagGroup>): nat
    decreases |v|
  {
    if |v| == 0 then 0 else |v[0].items| + TotalItems(v[1..])
  }

  /** How many times an entry is listed in the tag view: once per tag, or once if untagged. */
  function Weight(data: seq<Entry>): nat
    decreases |data|
  {
    if |data| == 0 then 0
    else (if |data[0].tags| == 0 then 1 else |data[0].tags|) + Weight(data[1..])
  }

  /** The list items of a concatenation of views add up. */
  lemma {:induction false} TotalItemsAppend(a: seq<TagGroup>, b: seq<TagGroup>)
    ensures TotalItems(a + b) == TotalItems(a) + TotalItems(b)
    decreases |a|
  {
    if |a| == 0 {
      assert a + b == b;
    } else {
      assert (a + b)[1..] == a[1..] + b;
      TotalItemsAppend(a[1..], b);
    }
  }

  /** How often the keys in `keys` occur, together, among `tags`. */
  function Occurrences(keys: seq<string>, tags: seq<string>): nat
    decreases |keys|
  {
    if |keys| == 0 then 0 else multiset(tags)[keys[0]] + Occurrences(keys[1..], tags)
  }

  lemma {:induction false} OccurrencesNone(keys: seq<string>, tags: seq<string>)
    requires forall x :: x in keys ==> x !in tags
    ensures Occurrences(keys, tags) == 0
    decreases |keys|
  {
    if |keys| > 0 {
      assert keys[0] in keys;
      OccurrencesNone(keys[1..], tags);
    }
  }

  lemma {:induction false} OccurrencesCons(keys: seq<string>, t: string, rest: seq<string>)
    ensures Occurrences(keys, [t] + rest) == Occurrences(keys, [t]) + Occurrences(keys, rest)
    decreases |keys|
  {
    if |keys| > 0 {
      assert multiset([t] + rest) == multiset([t]) + multiset(rest);
      OccurrencesCons(keys[1..], t, rest);
    }
  }

  /** A key list without duplicates holds each of its keys once. */
  lemma {:induction false} OccurrencesOne(keys: seq<string>, t: string)
    requires StrictlySorted(keys)
    requires t in keys
    ensures Occurrences(keys, [t]) == 1
    decreases |keys|
  {
    if keys[0] == t {
      forall x | x in keys[1..] ensures x !in [t] {
        StrLessIrreflexive(t);
      }
      OccurrencesNone(keys[1..], [t]);
    } else {
      OccurrencesOne(keys[1..], t);
    }
  }

  /** Distinct keys covering every tag count each tag once. */
  lemma {:induction false} OccurrencesCover(keys: seq<string>, tags: seq<string>)
    requires StrictlySorted(keys)
    requires forall x :: x in tags ==> x in keys
    ensures Occurrences(keys, tags) == |tags|
    decreases |tags|
  {
    if |tags| == 0 {
      OccurrencesNone(keys, tags);
    } else {
      assert tags == [tags[0]] + tags[1..];
      OccurrencesCons(keys, tags[0], tags[1..]);
      OccurrencesOne(keys, tags[0]);
      OccurrencesCover(keys, tags[1..]);
    }
  }

  /** The sizes of the buckets for `keys`, added up. */
  function BucketSizes(data: seq<Entry>, keys: seq<string>): nat
    decreases |keys|
  {
    if |keys| == 0 then 0 else |TagBucket(data, keys[0])| + BucketSizes(data, keys[1..])
  }

  lemma {:induction false} TagGroupsItems(data: seq<Entry>, keys: seq<string>)
    ensures TotalItems(TagGroups(data, keys)) == BucketSizes(data, keys)
    decreases |keys|
  {
    if |keys| > 0 {
      TagGroupsItems(data, keys[1..]);
    }
  }

  /** Peeling the first entry off every bucket at once. */
  lemma {:induction false} BucketSizesStep(data: seq<Entry>, keys: seq<string>)
    requires |data| > 0
    ensures BucketSizes(data, keys) == Occurrences(keys, data[0].tags) + BucketSizes(data[1..], keys)
    decreases |keys|
  {
    if |keys| > 0 {
      BucketSizesStep(data, keys[1..]);
    }
  }

  /** The tag occurrences of all entries. */
  function TagCount(data: seq<Entry>): nat
    decreases |data|
  {
    if |data| == 0 then 0 else |data[0].tags| + TagCount(data[1..])
  }

  /** Every tag some entry carries is among `keys`. */
  predicate CoversTags(data: seq<Entry>, keys: seq<string>) {
    forall e, x :: e in data && x in e.tags ==> x in keys
  }

  lemma {:induction false} BucketSizesCount(data: seq<Entry>, keys: seq<string>)
    requires StrictlySorted(keys)
    requires CoversTags(data, keys)
    ensures BucketSizes(data, keys) == TagCount(data)
    decreases |data|
  {
    if |data| == 0 {
      forall i | 0 <= i < |keys| ensures TagBucket(data, keys[i]) == [] { }
      BucketSizesEmpty(keys);
    } else {
      assert data[0] in data;
      assert CoversTags(data[1..], keys) by {
        forall e, x | e in data[1..] && x in e.tags ensures x in keys {
          assert e in data;
        }
      }
      BucketSizesStep(data, keys);
      OccurrencesCover(keys, data[0].tags);
      BucketSizesCount(data[1..], keys);
    }
  }

  lemma {:induction false} BucketSizesEmpty(keys: seq<string>)
    ensures BucketSizes([], keys) == 0
    decreases |keys|
  {
    if |keys| > 0 {
      BucketSizesEmpty(keys[1..]);
    }
  }

  lemma {:induction false} WeightSplit(data: seq<Entry>)
    ensures Weight(data) == TagCount(data) + |UntaggedBucket(data)|
    decreases |data|
  {
    if |data| > 0 {
      WeightSplit(data[1..]);
    }
  }

  /**
   * The tag view lists every entry once per tag it carries, and once (under
   * Untagged) if it carries none.
   */
  lemma TagViewSize(data: seq<Entry>)
    ensures TotalItems(ByTags(data)) == Weight(data)
  {
    var keys := TagKeys(data);
    assert CoversTags(data, keys);
    TotalItemsAppend(TagGroups(data, keys), UntaggedGroups(data));
    TagGroupsItems(data, keys);
    BucketSizesCount(data, keys);
    WeightSplit(data);
  }

  /** The number of list items the rating view shows. */
  function RatingItems(v: seq<RatingGroup>): nat
    decreases |v|
  {
    if |v| == 0 then 0 else |v[0].items| + RatingItems(v[1..])
  }

  /** How many entries are rated 1..`r`. */
  function RatedUpTo(data: seq<Entry>, r: int): nat
    decreases |data|
  {
    if |data| == 0 then 0
    else (if 1 <= data[0].rating <= r then 1 else 0) + RatedUpTo(data[1..], r)
  }

  lemma {:induction false} RatedUpToStep(data: seq<Entry>, r: int)
    requires r >= 1
    ensures RatedUpTo(data, r) == |RatingBucket(data, r)| + RatedUpTo(data, r - 1)
    decreases |data|
  {
    if |data| > 0 {
      RatedUpToStep(data[1..], r);
    }
  }

  lemma {:induction false} RatingGroupsItems(data: seq<Entry>, r: int)
    requires 0 <= r <= 5
    ensures RatingItems(RatingGroupsFrom(data, r)) == RatedUpTo(data, r)
    decreases r
  {
    if r == 0 {
      RatedUpToNone(data);
    } else {
      RatingGroupsItems(data, r - 1);
      RatedUpToStep(data, r);
      var b := RatingBucket(data, r);
      var rest := RatingGroupsFrom(data, r - 1);
      if |b| > 0 {
        assert ([RatingGroup(r, b)] + rest)[1..] == rest;
      }
    }
  }

  lemma {:induction false} RatedUpToNone(data: seq<Entry>)
    ensures RatedUpTo(data, 0) == 0
    decreases |data|
  {
    if |data| > 0 {
      RatedUpToNone(data[1..]);
    }
  }

  /**
   * The rating view lists each entry rated 1..5 once and nothing else: a
   * rating above 5 is kept by the filter but has no group to be shown in.
   */
  lemma RatingViewSize(data: seq<Entry>)
    ensures RatingItems(ByRating(data)) == RatedUpTo(data, 5)
  {
    RatingGroupsItems(data, 5);
  }

  // ----- The popup -----

  /** What the popup shows: both views of the loaded entries, or nothing if loading throws. */
  datatype Views = Views(byRating: seq<RatingGroup>, byTags: seq<TagGroup>)

  function Popup(items: seq<(string, Raw)>): (r: Result<Views, string>)
    ensures r.Failure? <==> HasNull(items)
    ensures r.Success? ==> r.value == Views(ByRating(Rated(items)), ByTags(Rated(items)))
  {
    match LoadData(items)
    case Failure(err) => Failure(err)
    case Success(data) => Success(Views(ByRating(data), ByTags(data)))
  }

  /** `e` is how content.js reads one of the stored pairs. */
  predicate FromStore(items: seq<(string, Raw)>, e: Entry) {
    exists i :: 0 <= i < |items| && e == AsEntry(items[i].0, items[i].1)
  }

  /** Every loaded entry comes from some stored pair. */
  lemma {:induction false} RatedFrom(items: seq<(string, Raw)>)
    ensures forall e :: e in Rated(items) ==> FromStore(items, e)
    decreases |items|
  {
    if |items| > 0 {
      RatedFrom(items[1..]);
      var first := AsEntry(items[0].0, items[0].1);
      assert Rated(items) == (if first.rating > 0 then [first] else []) + Rated(items[1..]);
      forall e | e in Rated(items) ensures FromStore(items, e) {
        if e == first {
          assert e == AsEntry(items[0].0, items[0].1);
        } else {
          assert e in Rated(items[1..]);
          var i :| 0 <= i < |items[1..]| && e == AsEntry(items[1..][i].0, items[1..][i].1);
          assert items[1..][i] == items[i + 1];
        }
      }
    }
  }

  /** The rating view lists nothing that is not in its input. */
  lemma RatingViewFromInput(data: seq<Entry>)
    ensures forall g, e :: g in ByRating(data) && e in g.items ==> e in data
  {
    var v := ByRating(data);
    forall g, e | g in v && e in g.items ensures e in data {
      var k :| 0 <= k < |v| && v[k] == g;
    }
  }

  /** The tag view lists nothing that is not in its input. */
  lemma TagViewFromInput(data: seq<Entry>)
    ensures forall g, e :: g in ByTags(data) && e in g.items ==> e in data
  {
    var v := ByTags(data);
    forall g, e | g in v && e in g.items ensures e in data {
      var k :| 0 <= k < |v| && v[k] == g;
    }
  }

  /** A rated stored pair, read as content.js reads it. */
  predicate Shown(items: seq<(string, Raw)>, e: Entry) {
    e.rating > 0 && FromStore(items, e)
  }

  /** Everything either view lists is a stored pair, read as content.js reads it, rated above 0. */
  lemma PopupSources(items: seq<(string, Raw)>)
    requires !HasNull(items)
    ensures forall g, e :: g in Popup(items).value.byRating && e in g.items ==> Shown(items, e)
    ensures forall g, e :: g in Popup(items).value.byTags && e in g.items ==> Shown(items, e)
  {
    RatedMembers(items);
    RatedFrom(items);
    RatingViewFromInput(Rated(items));
    TagViewFromInput(Rated(items));
  }

  /** Every stored pair rated 1..5 is listed in the rating view. */
  lemma PopupRatingComplete(items: seq<(string, Raw)>, i: int)
    requires !HasNull(items)
    requires 0 <= i < |items| && 1 <= Parse(items[i].1).rating <= 5
    ensures exists g :: g in Popup(items).value.byRating && AsEntry(items[i].0, items[i].1) in g.items
  {
    var data := Rated(items);
    var v := Popup(items).value.byRating;
    var e := AsEntry(items[i].0, items[i].1);
    RatedMembers(items);
    RatingViewPlacement(data, e);
    var k :| 0 <= k < |v| && v[k].rating == e.rating;
    assert v[k] in v;
  }

  /** Every stored pair rated above 0 is listed in the tag view. */
  lemma PopupTagComplete(items: seq<(string, Raw)>, i: int)
    requires !HasNull(items)
    requires 0 <= i < |items| && Parse(items[i].1).rating > 0
    ensures exists g :: g in Popup(items).value.byTags && AsEntry(items[i].0, items[i].1) in g.items
  {
    RatedMembers(items);
    TagViewPlacement(Rated(items), AsEntry(items[i].0, items[i].1));
  }

  /** Every entry of the input appears somewhere in the tag view. */
  lemma TagViewPlacement(data: seq<Entry>, e: Entry)
    requires e in data
    ensures exists g :: g in ByTags(data) && e in g.items
  {
    var v := ByTags(data);
    if |e.tags| == 0 {
      assert multiset(UntaggedBucket(data))[e] > 0;
      assert TagGroup(Untagged, UntaggedBucket(data)) in v;
    } else {
      var t := e.tags[0];
      assert Mentions(data, t);
      TagBucketCount(data, t, e);
      PositiveProduct(multiset(data)[e], multiset(e.tags)[t]);
      assert e in TagBucket(data, t);
      assert TagGroup(Tag(t), TagBucket(data, t)) in v;
    }
  }

  /**
   * A store holding a legacy number for "a", a tagged record for "b" and a
   * tagged but unrated record for "c": "c" is shown nowhere, "b" under both
   * of its tags, and "a" under Untagged.
   */
  lemma WorkedExample()
    ensures Popup(ExampleStore()) == Success(Views(
              [RatingGroup(5, [ExampleB()]), RatingGroup(3, [ExampleA()])],
              [TagGroup(Tag("x"), [ExampleB()]), TagGroup(Tag("y"), [ExampleB()]), TagGroup(Untagged, [ExampleA()])]))
  {
    ExampleLoaded();
    ExampleRatingView();
    ExampleTagView();
  }

  function ExampleStore(): seq<(string, Raw)> {
    [("a", Num(3)), ("b", Obj(Some(5), Some(["x", "y"]))), ("c", Obj(Some(0), Some(["z"])))]
  }

  function ExampleA(): Entry {
    Entry("a", 3, [])
  }

  function ExampleB(): Entry {
    Entry("b", 5, ["x", "y"])
  }

  lemma ExampleLoaded()
    ensures !HasNull(ExampleStore())
    ensures Rated(ExampleStore()) == [ExampleA(), ExampleB()]
  {
    var items := ExampleStore();
    assert items[1..][1..] == [items[2]];
  }

  lemma ExampleRatingBuckets()
    ensures RatingBucket([ExampleA(), ExampleB()], 5) == [ExampleB()]
    ensures RatingBucket([ExampleA(), ExampleB()], 3) == [ExampleA()]
    ensures RatingBucket([ExampleA(), ExampleB()], 4) == []
    ensures RatingBucket([ExampleA(), ExampleB()], 2) == []
    ensures RatingBucket([ExampleA(), ExampleB()], 1) == []
  {
    var a, b := ExampleA(), ExampleB();
    var data := [a, b];
    assert data[1..] == [b] && data[1..][1..] == [];
  }

  lemma ExampleRatingLow()
    ensures RatingGroupsFrom([ExampleA(), ExampleB()], 2) == []
  {
    ExampleRatingBuckets();
    assert RatingGroupsFrom([ExampleA(), ExampleB()], 1) == [];
  }

  lemma ExampleRatingMid()
    ensures RatingGroupsFrom([ExampleA(), ExampleB()], 4) == [RatingGroup(3, [ExampleA()])]
  {
    ExampleRatingLow();
    ExampleRatingBuckets();
    assert RatingGroupsFrom([ExampleA(), ExampleB()], 3) == [RatingGroup(3, [ExampleA()])];
  }

  lemma ExampleRatingGroups()
    ensures RatingGroupsFrom([ExampleA(), ExampleB()], 5) == [RatingGroup(5, [ExampleB()]), RatingGroup(3, [ExampleA()])]
  {
    ExampleRatingMid();
    ExampleRatingBuckets();
  }

  lemma ExampleRatingView()
    ensures ByRating([ExampleA(), ExampleB()]) == [RatingGroup(5, [ExampleB()]), RatingGroup(3, [ExampleA()])]
  {
    ExampleRatingGroups();
  }

  lemma ExampleTagKeys()
    ensures TagKeys([ExampleA(), ExampleB()]) == ["x", "y"]
  {
    var a, b := ExampleA(), ExampleB();
    var data := [a, b];
    assert data[1..] == [b] && data[1..][1..] == [];
    assert InsertAll([], b.tags) == ["x", "y"] by {
      assert StrLess("x", "y");
      assert Insert(["x"], "y") == ["x", "y"];
      assert b.tags[1..] == ["y"];
    }
    assert GroupKeys([], [b]) == ["x", "y"];
  }

  lemma ExampleTagBuckets()
    ensures TagBucket([ExampleA(), ExampleB()], "x") == [ExampleB()]
    ensures TagBucket([ExampleA(), ExampleB()], "y") == [ExampleB()]
  {
    var a, b := ExampleA(), ExampleB();
    var data := [a, b];
    assert data[1..] == [b] && data[1..][1..] == [];
    assert multiset(b.tags)["x"] == 1 && multiset(b.tags)["y"] == 1;
    assert Repeat(b, 1) == [b];
  }

  lemma ExampleUntagged()
    ensures UntaggedGroups([ExampleA(), ExampleB()]) == [TagGroup(Untagged, [ExampleA()])]
  {
    var data := [ExampleA(), ExampleB()];
    assert data[1..] == [ExampleB()] && data[1..][1..] == [];
    assert UntaggedBucket(data) == [ExampleA()];
  }

  lemma ExampleTagView()
    ensures ByTags([ExampleA(), ExampleB()])
            == [TagGroup(Tag("x"), [ExampleB()]), TagGroup(Tag("y"), [ExampleB()]), TagGroup(Untagged, [ExampleA()])]
  {
    ExampleTagKeys();
    ExampleTagGroups();
    ExampleUntagged();
  }

  lemma ExampleTagGroups()
    ensures TagGroups([ExampleA(), ExampleB()], ["x", "y"])
            == [TagGroup(Tag("x"), [ExampleB()]), TagGroup(Tag("y"), [ExampleB()])]
  {
    ExampleTagGroupY();
    ExampleTagBuckets();
    assert ["x", "y"][1..] == ["y"];
  }

  lemma ExampleTagGroupY()
    ensures TagGroups([ExampleA(), ExampleB()], ["y"]) == [TagGroup(Tag("y"), [ExampleB()])]
  {
    ExampleTagBuckets();
    assert ["y"][1..] == [];
  }
}

=== FILE: codec.dfy ===
/**
 * The record codec: how a raw value read from the extension's key-value
 * store becomes a `{rating, tags}` annotation record, and what the editor
 * writes back.
 */
module Codec {
  import opened Wrappers

  /**
   * A value as found in the store, classified the way `typeof` classifies it.
   * `Num` is the legacy bare rating; `Obj` is the current object shape, whose
   * fields may be absent; `Null` is JavaScript's `null` (an "object" to
   * `typeof`); `Other` stands for `undefined` (a missing key), strings,
   * booleans and everything else.
   */
  datatype Raw =
    | Num(n: int)
    | Obj(rating: Option<int>, tags: Option<seq<string>>)
    | Null
    | Other

  /** A normalised annotation: rating 0 means "not rated". */
  datatype Record = Record(rating: int, tags: seq<string>)

  const Unrated := Record(0, [])

  /** `parseData` of content.js: total, never fails. */
  function Parse(raw: Raw): Record {
    match raw
    case Num(n) => Record(n, [])
    case Obj(rating, tags) => Record(rating.GetOr(0), tags.GetOr([]))
    case Null => Unrated
    case Other => Unrated
  }

  /** The object the editor hands to `saveData`: the whole record, both fields present. */
  function Stored(rec: Record): Raw {
    Obj(Some(rec.rating), Some(rec.tags))
  }

  /** Reading back what the editor wrote gives the record it wrote. */
  lemma ParseStored(rec: Record)
    ensures Parse(Stored(rec)) == rec
  {
  }

  /**
   * A legacy bare number reads exactly like a stored object with that rating
   * and no tags; the number is passed through without clamping to 0..5.
   */
  lemma ParseLegacy(n: int)
    ensures Parse(Num(n)) == Parse(Stored(Record(n, [])))
    ensures Parse(Num(n)).rating == n
  {
  }

  /**
   * Missing or falsy fields default to rating 0 and no tags, and a value that
   * is neither a number nor a non-null object reads as the unrated record.
   */
  lemma ParseDefaults(rating: Option<int>, tags: Option<seq<string>>)
    ensures Parse(Obj(rating, tags)).rating == (if rating.Some? then rating.value else 0)
    ensures Parse(Obj(rating, tags)).tags == (if tags.Some? then tags.value else [])
    ensures Parse(Obj(None, None)) == Parse(Obj(Some(0), Some([]))) == Unrated
    ensures Parse(Null) == Parse(Other) == Unrated
  {
  }

  /** `res?.[url]`: the stored value, or `undefined` when the key is absent. */
  function Lookup(store: map<string, Raw>, url: string): Raw {
    if url in store then store[url] else Other
  }

  /**
   * `saveData`: writes the whole record under `url` while the extension
   * context is alive, and silently does nothing once it has been invalidated.
   */
  function SaveData(store: map<string, Raw>, alive: bool, url: string, rec: Record): (store': map<string, Raw>)
    ensures alive ==> url in store' && store'[url] == Stored(rec)
    ensures alive ==> Parse(Lookup(store', url)) == rec
    ensures !alive ==> store' == store
    ensures forall u :: u != url ==> Lookup(store', u) == Lookup(store, u)
  {
    if alive then store[url := Stored(rec)] else store
  }
}

=== FILE: scanner.dfy ===
/**
 * The listing scanner of content.js (`processTitle`, `runSearchPage`): every
 * title element found on a results page is resolved to an address, stamped
 * as processed, and given a read-only ` (n*)` suffix when its stored rating
 * is positive. The stamp is what makes the many re-scans harmless.
 */
module Scanner {
  import opened Wrappers
  import opened Codec

  /** An opaque identity for a title element of the page. */
  type Element = nat

  /** The inline suffix appended to a title element, showing a rating. */
  datatype Suffix = Suffix(el: Element, rating: int)

  /**
   * What the scanner has done to the page: the elements stamped as processed,
   * and every suffix appended so far, in the order they were appended.
   */
  datatype Page = Page(marked: set<Element>, suffixes: seq<Suffix>)

  /**
   * What the asynchronous store read sees: whether the extension context is
   * still valid (`chrome.runtime.id` and no `lastError`) and the store contents.
   */
  datatype Host = Host(alive: bool, store: map<string, Raw>)

  /** One re-scan: the title elements in document order, the address oracle, and the host at that time. */
  datatype Pass = Pass(titles: seq<Element>, resolve: Element -> Option<string>, host: Host)

  /** No element carries two suffixes, every suffixed element is stamped, and every shown rating is positive. */
  predicate WellFormed(p: Page) {
    && (forall i :: 0 <= i < |p.suffixes| ==> p.suffixes[i].el in p.marked && p.suffixes[i].rating > 0)
    && (forall i, j :: 0 <= i < j < |p.suffixes| ==> p.suffixes[i].el != p.suffixes[j].el)
  }

  /** `injectReadOnlyRating`: nothing for a rating of 0 or less, the suffix otherwise. */
  function InjectReadOnly(el: Element, rec: Record): Option<Suffix> {
    if rec.rating <= 0 then None else Some(Suffix(el, rec.rating))
  }

  /** The record the scanner reads for an address. */
  function StoredRating(host: Host, url: string): int {
    Parse(Lookup(host.store, url)).rating
  }

  /**
   * `processTitle`: skip a stamped element; skip, without stamping, one whose
   * address does not resolve; otherwise stamp it, then (if the context is
   * alive) read its record and append a suffix when the rating is positive.
   */
  function ProcessTitle(p: Page, el: Element, resolve: Element -> Option<string>, host: Host): (p': Page)
    ensures el in p.marked || resolve(el).None? ==> p' == p
    ensures p'.marked == if el !in p.marked && resolve(el).Some? then p.marked + {el} else p.marked
    ensures p.suffixes <= p'.suffixes && |p'.suffixes| <= |p.suffixes| + 1
    ensures |p'.suffixes| > |p.suffixes| <==>
              el !in p.marked && resolve(el).Some? && host.alive && StoredRating(host, resolve(el).value) > 0
    ensures |p'.suffixes| > |p.suffixes| ==>
              p'.suffixes[|p.suffixes|] == Suffix(el, StoredRating(host, resolve(el).value))
    ensures WellFormed(p) ==> WellFormed(p')
  {
    if el in p.marked then p
    else
      match resolve(el)
      case None => p
      case Some(url) =>
        var stamped := p.(marked := p.marked + {el});
        if !host.alive then stamped
        else
          var data := Parse(Lookup(host.store, url));
          if data.rating > 0 then
            match InjectReadOnly(el, data)
            case Some(s) => stamped.(suffixes := stamped.suffixes + [s])
            case None => stamped
          else stamped
  }

  /**
   * A resolved, unstamped title whose address has nothing stored, or whose
   * record reads as unrated, is stamped and gets no suffix, so later scans
   * skip it.
   */
  lemma UnratedTitleStampedBare(p: Page, el: Element, resolve: Element -> Option<string>, host: Host)
    requires el !in p.marked && resolve(el).Some?
    requires resolve(el).value !in host.store || StoredRating(host, resolve(el).value) <= 0
    ensures ProcessTitle(p, el, resolve, host) == p.(marked := p.marked + {el})
  {
  }

  /** A suffix shows the rating stored for its element's address, read while the context was alive. */
  predicate ShowsStored(s: Suffix, resolve: Element -> Option<string>, host: Host) {
    host.alive && resolve(s.el).Some? && s.rating == StoredRating(host, resolve(s.el).value)
  }

  /** `runSearchPage`: `processTitle` on every title element, in document order. */
  function Scan(p: Page, titles: seq<Element>, resolve: Element -> Option<string>, host: Host): (p': Page)
    ensures p'.marked == p.marked + (set e | e in titles && resolve(e).Some?)
    ensures p.suffixes <= p'.suffixes
    ensures forall i :: |p.suffixes| <= i < |p'.suffixes| ==>
              p'.suffixes[i].el in titles && p'.suffixes[i].el !in p.marked
    ensures WellFormed(p) ==> WellFormed(p')
    decreases |titles|
  {
    if |titles| == 0 then p
    else Scan(ProcessTitle(p, titles[0], resolve, host), titles[1..], resolve, host)
  }

  /**
   * A scan shows a suffix for every title that was not stamped before, whose
   * address resolves and whose stored rating is positive, while the context
   * is alive; the suffix carries that rating.
   */
  lemma {:induction false} ScanShowsSuffix(p: Page, titles: seq<Element>, resolve: Element -> Option<string>,
                                           host: Host, e: Element)
    requires e in titles && e !in p.marked && resolve(e).Some?
    requires host.alive && StoredRating(host, resolve(e).value) > 0
    ensures Suffix(e, StoredRating(host, resolve(e).value)) in Scan(p, titles, resolve, host).suffixes
    decreases |titles|
  {
    var p1 := ProcessTitle(p, titles[0], resolve, host);
    if titles[0] == e {
      assert p1.suffixes[|p.suffixes|] in p1.suffixes;
    } else {
      assert e in titles[1..];
      ScanShowsSuffix(p1, titles[1..], resolve, host, e);
    }
  }

  /** Every suffix `p'` has beyond those of `p` shows the rating stored for its element's address. */
  predicate NewShowStored(p: Page, p': Page, resolve: Element -> Option<string>, host: Host) {
    forall i :: |p.suffixes| <= i < |p'.suffixes| ==> ShowsStored(p'.suffixes[i], resolve, host)
  }

  /** Every suffix a scan adds shows the rating stored for its element's address. */
  lemma {:induction false} ScanSuffixValues(p: Page, titles: seq<Element>, resolve: Element -> Option<string>, host: Host)
    ensures NewShowStored(p, Scan(p, titles, resolve, host), resolve, host)
    decreases |titles|
  {
    if |titles| > 0 {
      var p1 := ProcessTitle(p, titles[0], resolve, host);
      var p' := Scan(p1, titles[1..], resolve, host);
      ScanSuffixValues(p1, titles[1..], resolve, host);
      assert p' == Scan(p, titles, resolve, host);
      forall i | |p.suffixes| <= i < |p'.suffixes|
        ensures ShowsStored(p'.suffixes[i], resolve, host)
      {
        if i < |p1.suffixes| {
          var s := Suffix(titles[0], StoredRating(host, resolve(titles[0]).value));
          assert i == |p.suffixes|;
          assert p1.suffixes[i] == s;
          assert p'.suffixes[i] == s;
        } else {
          assert ShowsStored(p'.suffixes[i], resolve, host);
        }
      }
    }
  }

  /** A scan over elements that are all stamped or unresolvable changes nothing. */
  lemma {:induction false} ScanSettled(p: Page, titles: seq<Element>, resolve: Element -> Option<string>, host: Host)
    requires forall e :: e in titles && resolve(e).Some? ==> e in p.marked
    ensures Scan(p, titles, resolve, host) == p
    decreases |titles|
  {
    if |titles| > 0 {
      assert forall e :: e in titles[1..] ==> e in titles;
      ScanSettled(p, titles[1..], resolve, host);
    }
  }

  /** Scanning the same titles a second time, with the same addresses and store, changes nothing more. */
  lemma ScanIdempotent(p: Page, titles: seq<Element>, resolve: Element -> Option<string>, host: Host)
    ensures Scan(Scan(p, titles, resolve, host), titles, resolve, host) == Scan(p, titles, resolve, host)
  {
    ScanSettled(Scan(p, titles, resolve, host), titles, resolve, host);
  }

  /** The startup scan followed by one re-scan per mutation notification. */
  function ScanAll(p: Page, passes: seq<Pass>): (p': Page)
    ensures p.suffixes <= p'.suffixes
    ensures p.marked <= p'.marked
    ensures WellFormed(p) ==> WellFormed(p')
    decreases |passes|
  {
    if |passes| == 0 then p
    else ScanAll(Scan(p, passes[0].titles, passes[0].resolve, passes[0].host), passes[1..])
  }

  /**
   * Across any number of scans, each element gets at most one suffix and
   * only for a positive rating, and an element whose address never resolves
   * is never stamped, so every later scan looks at it again.
   */
  lemma {:induction false} ScansNeverRepeat(p: Page, passes: seq<Pass>, el: Element)
    requires WellFormed(p)
    requires el !in p.marked
    requires forall k :: 0 <= k < |passes| ==> passes[k].resolve(el).None?
    ensures WellFormed(ScanAll(p, passes))
    ensures el !in ScanAll(p, passes).marked
    decreases |passes|
  {
    if |passes| > 0 {
      var q := Scan(p, passes[0].titles, passes[0].resolve, passes[0].host);
      assert el !in q.marked;
      ScansNeverRepeat(q, passes[1..], el);
    }
  }
}

=== FILE: tags.dfy ===
/**
 * The tag text of the editor widget: the input is prefilled with the tags
 * joined by ", ", and committing it splits on ',', trims every token and
 * drops the empty ones.
 */
module Tags {
  import opened Text

  /** What a committed tag always is: non-empty, trimmed, without a comma. */
  predicate ValidTag(t: string) {
    t != "" && IsTrimmed(t) && ',' !in t
  }

  predicate ValidTags(ts: seq<string>) {
    forall i :: 0 <= i < |ts| ==> ValidTag(ts[i])
  }

  /** `.map(t => t.trim()).filter(t => t)` over comma-free pieces, in order. */
  function CleanTokens(parts: seq<string>): (r: seq<string>)
    requires forall i :: 0 <= i < |parts| ==> ',' !in parts[i]
    ensures ValidTags(r)
    ensures |r| <= |parts|
    decreases |parts|
  {
    if |parts| == 0 then []
    else
      var t := Trim(parts[0]);
      TrimKeepsOut(parts[0], ',');
      var rest := CleanTokens(parts[1..]);
      if t == "" then rest else [t] + rest
  }

  /** Cleaning works piece by piece: it keeps the order of the pieces. */
  lemma {:induction false} CleanTokensAppend(a: seq<string>, b: seq<string>)
    requires forall i :: 0 <= i < |a| ==> ',' !in a[i]
    requires forall i :: 0 <= i < |b| ==> ',' !in b[i]
    ensures CleanTokens(a + b) == CleanTokens(a) + CleanTokens(b)
    decreases |a|
  {
    if |a| == 0 {
      assert a + b == b;
    } else {
      assert (a + b)[1..] == a[1..] + b;
      CleanTokensAppend(a[1..], b);
    }
  }

  /** Every piece that is not blank survives, trimmed. */
  lemma {:induction false} CleanTokensKeeps(parts: seq<string>, i: int)
    requires forall i :: 0 <= i < |parts| ==> ',' !in parts[i]
    requires 0 <= i < |parts| && Trim(parts[i]) != ""
    ensures Trim(parts[i]) in CleanTokens(parts)
    decreases |parts|
  {
    if i > 0 {
      CleanTokensKeeps(parts[1..], i - 1);
    }
  }

  /** Every tag kept is some piece, trimmed. */
  lemma {:induction false} CleanTokensFrom(parts: seq<string>, t: string)
    requires forall i :: 0 <= i < |parts| ==> ',' !in parts[i]
    requires t in CleanTokens(parts)
    ensures exists i :: 0 <= i < |parts| && Trim(parts[i]) == t
    decreases |parts|
  {
    if Trim(parts[0]) != t {
      CleanTokensFrom(parts[1..], t);
      var i :| 0 <= i < |parts[1..]| && Trim(parts[1..][i]) == t;
      assert parts[i + 1] == parts[1..][i];
    }
  }

  /** The tag list a commit of the input text `text` produces. */
  function ParseTags(text: string): (r: seq<string>)
    ensures ValidTags(r)
  {
    CleanTokens(Split(text, ','))
  }

  /** The text the tag input is prefilled with. */
  function JoinTags(tags: seq<string>): string {
    Join(tags, ", ")
  }

  /**
   * Committing the prefilled text unchanged gives back exactly the tags it
   * was built from, the empty list included.
   */
  lemma TagsRoundTrip(tags: seq<string>)
    requires ValidTags(tags)
    ensures ParseTags(JoinTags(tags)) == tags
  {
    if |tags| == 0 {
      assert Trim("") == "";
    } else {
      assert "" + JoinTags(tags) == JoinTags(tags);
      RoundTripAfter("", tags);
    }
  }

  lemma {:induction false} RoundTripAfter(pre: string, tags: seq<string>)
    requires AllSpace(pre)
    requires |tags| > 0 && ValidTags(tags)
    ensures CleanTokens(Split(pre + JoinTags(tags), ',')) == tags
    decreases |tags|
  {
    var t := tags[0];
    assert ValidTag(t);
    assert ',' !in pre + t by {
      assert !IsSpace(',');
    }
    if |tags| == 1 {
      assert pre + JoinTags(tags) == pre + t;
      SplitNoSep(pre + t, ',');
      OneToken(pre, t);
    } else {
      var rest := tags[1..];
      var tail := " " + JoinTags(rest);
      var parts := Split(tail, ',');
      assert ValidTags(rest);
      assert AllSpace(" ");
      calc {
        CleanTokens(Split(pre + JoinTags(tags), ','));
        { JoinTagsCons(pre, tags); }
        CleanTokens(Split((pre + t) + [','] + tail, ','));
        { SplitAtFirst(pre + t, ',', tail); }
        CleanTokens([pre + t] + parts);
        { CleanTokensAppend([pre + t], parts); }
        CleanTokens([pre + t]) + CleanTokens(parts);
        { OneToken(pre, t); RoundTripAfter(" ", rest); }
        [t] + rest;
      }
      assert tags == [t] + rest;
    }
  }

  /** The joined text of two or more tags, cut at its first comma. */
  lemma JoinTagsCons(pre: string, tags: seq<string>)
    requires |tags| > 1
    ensures pre + JoinTags(tags) == (pre + tags[0]) + [','] + (" " + JoinTags(tags[1..]))
  {
    assert JoinTags(tags) == tags[0] + ", " + JoinTags(tags[1..]);
    assert ", " == [','] + " ";
  }

  /** A valid tag behind whitespace cleans to itself. */
  lemma OneToken(pre: string, t: string)
    requires AllSpace(pre) && ValidTag(t)
    requires ',' !in pre + t
    ensures CleanTokens([pre + t]) == [t]
  {
    TrimAfterSpace(pre, t);
  }

  /** Committing, reopening and committing again changes nothing. */
  lemma ParseTagsIdempotent(text: string)
    ensures ParseTags(JoinTags(ParseTags(text))) == ParseTags(text)
  {
    TagsRoundTrip(ParseTags(text));
  }
}

=== FILE: text.dfy ===
/**
 * The string operations the extension relies on from the JavaScript runtime:
 * `String.prototype.trim`, `split(',')`, `Array.prototype.join`, and the
 * default ordering that `Array.prototype.sort` applies to strings.
 */
module Text {

  /** The code points ECMAScript's `trim` strips: WhiteSpace and LineTerminator. */
  const SpaceChars: set<char> := {
    '\t', '\n', '\U{B}', '\U{C}', '\r', ' ', '\U{A0}', '\U{1680}',
    '\U{2000}', '\U{2001}', '\U{2002}', '\U{2003}', '\U{2004}', '\U{2005}',
    '\U{2006}', '\U{2007}', '\U{2008}', '\U{2009}', '\U{200A}',
    '\U{2028}', '\U{2029}', '\U{202F}', '\U{205F}', '\U{3000}', '\U{FEFF}'
  }

  predicate IsSpace(c: char) {
    c in SpaceChars
  }

  predicate AllSpace(s: string) {
    forall i :: 0 <= i < |s| ==> IsSpace(s[i])
  }

  /** Neither starts nor ends with whitespace. */
  predicate IsTrimmed(s: string) {
    |s| == 0 || (!IsSpace(s[0]) && !IsSpace(s[|s| - 1]))
  }

  /** The end of the run of whitespace in `s` that starts at `i`. */
  function SpaceRunEnd(s: string, i: nat): (j: nat)
    requires i <= |s|
    ensures i <= j <= |s|
    ensures forall k :: i <= k < j ==> IsSpace(s[k])
    ensures j == |s| || !IsSpace(s[j])
    decreases |s| - i
  {
    if i < |s| && IsSpace(s[i]) then SpaceRunEnd(s, i + 1) else i
  }

  /** The start of the run of whitespace in `s` that ends just before `j`. */
  function SpaceRunStart(s: string, j: nat): (i: nat)
    requires j <= |s|
    ensures i <= j
    ensures forall k :: i <= k < j ==> IsSpace(s[k])
    ensures i == 0 || !IsSpace(s[i - 1])
    decreases j
  {
    if j > 0 && IsSpace(s[j - 1]) then SpaceRunStart(s, j - 1) else j
  }

  /** A maximal run of whitespace starting at `i` ends at `m`, wherever it was found. */
  lemma SpaceRunEndUnique(s: string, i: nat, m: nat)
    requires i <= m <= |s|
    requires forall k :: i <= k < m ==> IsSpace(s[k])
    requires m == |s| || !IsSpace(s[m])
    ensures SpaceRunEnd(s, i) == m
  {
  }

  /** A maximal run of whitespace ending before `j` starts at `m`, wherever it was found. */
  lemma SpaceRunStartUnique(s: string, j: nat, m: nat)
    requires m <= j <= |s|
    requires forall k :: m <= k < j ==> IsSpace(s[k])
    requires m == 0 || !IsSpace(s[m - 1])
    ensures SpaceRunStart(s, j) == m
  {
  }

  /** `s` with its leading whitespace removed. */
  function TrimStart(s: string): (r: string)
    ensures |r| <= |s| && r == s[|s| - |r|..]
    ensures AllSpace(s[..|s| - |r|])
    ensures |r| == 0 || !IsSpace(r[0])
  {
    s[SpaceRunEnd(s, 0)..]
  }

  /** `s` with its trailing whitespace removed. */
  function TrimEnd(s: string): (r: string)
    ensures |r| <= |s| && r == s[..|r|]
    ensures AllSpace(s[|r|..])
    ensures |r| == 0 || !IsSpace(r[|r| - 1])
  {
    s[..SpaceRunStart(s, |s|)]
  }

  /** `r` occurs in `s` at offset `k` with nothing but whitespace around it. */
  predicate SpaceFramed(s: string, k: int, r: string) {
    && 0 <= k <= |s| - |r| && r == s[k..k + |r|]
    && AllSpace(s[..k]) && AllSpace(s[k + |r|..])
  }

  /**
   * JavaScript's `s.trim()`: leading and trailing whitespace removed.
   * `TrimFramed` and `TrimUnique` characterise it as the one trimmed infix
   * of `s` that has only whitespace around it.
   */
  function Trim(s: string): (r: string)
    ensures IsTrimmed(r)
  {
    TrimEnd(TrimStart(s))
  }

  lemma TrimIsInfix(s: string)
    ensures SpaceFramed(s, |s| - |TrimStart(s)|, TrimEnd(TrimStart(s)))
  {
    var a := TrimStart(s);
    var r := TrimEnd(a);
    var k := |s| - |a|;
    assert a == s[k..];
    assert r == a[..|r|];
    assert r == s[k..k + |r|];
    assert AllSpace(a[|r|..]);
    assert s[k + |r|..] == a[|r|..];
    assert AllSpace(s[..k]);
    assert SpaceFramed(s, k, r);
  }

  /** The trimmed string sits inside the input with only whitespace around it. */
  lemma TrimFramed(s: string)
    ensures exists k :: SpaceFramed(s, k, Trim(s))
  {
    TrimIsInfix(s);
    assert SpaceFramed(s, |s| - |TrimStart(s)|, Trim(s));
  }

  /** Any trimmed infix framed by whitespace is what `Trim` returns. */
  lemma TrimUnique(s: string, k: int, r: string)
    requires SpaceFramed(s, k, r) && IsTrimmed(r)
    ensures Trim(s) == r
  {
    var pre, post := s[..k], s[k + |r|..];
    if |r| == 0 {
      assert AllSpace(s) by {
        assert s == pre + post;
      }
      assert s + "" == s;
      TrimStartAfterSpace(s, "");
    } else {
      assert s == pre + (r + post);
      TrimStartAfterSpace(pre, r + post);
      TrimEndBeforeSpace(r, post);
    }
  }

  /** Trimming never introduces a character. */
  lemma TrimKeepsOut(s: string, c: char)
    requires c !in s
    ensures c !in Trim(s)
  {
    TrimIsInfix(s);
  }

  /** Whitespace in front of a trimmed string is exactly what `Trim` takes away. */
  lemma {:induction false} TrimAfterSpace(pre: string, t: string)
    requires AllSpace(pre)
    requires IsTrimmed(t)
    ensures Trim(pre + t) == t
  {
    TrimStartAfterSpace(pre, t);
    TrimEndOfTrimmed(t);
  }

  lemma TrimStartAfterSpace(pre: string, t: string)
    requires AllSpace(pre)
    requires |t| == 0 || !IsSpace(t[0])
    ensures TrimStart(pre + t) == t
  {
    var s := pre + t;
    assert forall k :: 0 <= k < |pre| ==> s[k] == pre[k];
    assert |t| > 0 ==> s[|pre|] == t[0];
    SpaceRunEndUnique(s, 0, |pre|);
    assert s[|pre|..] == t;
  }

  lemma TrimEndBeforeSpace(t: string, post: string)
    requires AllSpace(post)
    requires |t| == 0 || !IsSpace(t[|t| - 1])
    ensures TrimEnd(t + post) == t
  {
    var s := t + post;
    assert forall k :: |t| <= k < |s| ==> s[k] == post[k - |t|];
    assert |t| > 0 ==> s[|t| - 1] == t[|t| - 1];
    SpaceRunStartUnique(s, |s|, |t|);
    assert s[..|t|] == t;
  }

  lemma TrimEndOfTrimmed(t: string)
    requires |t| == 0 || !IsSpace(t[|t| - 1])
    ensures TrimEnd(t) == t
  {
    SpaceRunStartUnique(t, |t|, |t|);
  }

  /** `parts` joined with `sep` between consecutive elements (`Array.prototype.join`). */
  function Join(parts: seq<string>, sep: string): string
    decreases |parts|
  {
    if |parts| == 0 then ""
    else if |parts| == 1 then parts[0]
    else parts[0] + sep + Join(parts[1..], sep)
  }

  /**
   * JavaScript's `s.split(sep)` for a one-character separator: never empty,
   * no piece contains the separator, and joining the pieces back gives `s`.
   */
  function Split(s: string, sep: char): (parts: seq<string>)
    ensures |parts| >= 1
    ensures forall i :: 0 <= i < |parts| ==> sep !in parts[i]
    ensures Join(parts, [sep]) == s
    decreases |s|
  {
    if |s| == 0 then [""]
    else if s[0] == sep then
      var rest := Split(s[1..], sep);
      assert Join([""] + rest, [sep]) == "" + [sep] + Join(rest, [sep]);
      [""] + rest
    else
      var rest := Split(s[1..], sep);
      var parts := [[s[0]] + rest[0]] + rest[1..];
      assert sep !in [s[0]] + rest[0];
      assert forall i :: 1 <= i < |parts| ==> parts[i] == rest[i];
      if |rest| == 1 then parts
      else
        assert parts[1..] == rest[1..];
        assert Join(rest, [sep]) == rest[0] + [sep] + Join(rest[1..], [sep]);
        parts
  }

  /** A separator-free string is one piece. */
  lemma {:induction false} SplitNoSep(t: string, sep: char)
    requires sep !in t
    ensures Split(t, sep) == [t]
    decreases |t|
  {
    if |t| > 0 {
      SplitNoSep(t[1..], sep);
      assert [t[0]] + t[1..] == t;
    }
  }

  /** Splitting at the first separator: the text before it is the first piece. */
  lemma {:induction false} SplitAtFirst(t: string, sep: char, s: string)
    requires sep !in t
    ensures Split(t + [sep] + s, sep) == [t] + Split(s, sep)
    decreases |t|
  {
    if |t| == 0 {
      assert (t + [sep] + s)[1..] == s;
    } else {
      assert (t + [sep] + s)[1..] == t[1..] + [sep] + s;
      SplitAtFirst(t[1..], sep, s);
      assert [t[0]] + t[1..] == t;
    }
  }

  /** Joining separator-free pieces and splitting again gives the pieces back. */
  lemma {:induction false} JoinSplit(parts: seq<string>, sep: char)
    requires |parts| >= 1
    requires forall i :: 0 <= i < |parts| ==> sep !in parts[i]
    ensures Split(Join(parts, [sep]), sep) == parts
    decreases |parts|
  {
    if |parts| == 1 {
      SplitNoSep(parts[0], sep);
    } else {
      var rest := parts[1..];
      assert Join(parts, [sep]) == parts[0] + [sep] + Join(rest, [sep]);
      SplitAtFirst(parts[0], sep, Join(rest, [sep]));
      JoinSplit(rest, sep);
      assert parts == [parts[0]] + rest;
    }
  }

  /**
   * The first UTF-16 code unit of `c`: the code point itself inside the Basic
   * Multilingual Plane, the high surrogate otherwise.
   */
  function FirstCodeUnit(c: char): int {
    if c as int < 0x1_0000 then c as int else 0xD800 + (c as int - 0x1_0000) / 0x400
  }

  /**
   * `a` sorts before `b` when both are compared as UTF-16 code-unit
   * sequences. Code points sharing a first unit are both supplementary with
   * the same high surrogate, and their low surrogates follow code-point order.
   */
  predicate CharBefore(a: char, b: char) {
    FirstCodeUnit(a) < FirstCodeUnit(b) || (FirstCodeUnit(a) == FirstCodeUnit(b) && a < b)
  }

  /** The order `Array.prototype.sort` uses for strings when given no comparator. */
  predicate StrLess(a: string, b: string)
    decreases |a|
  {
    if |a| == 0 then |b| > 0
    else if |b| == 0 then false
    else if a[0] == b[0] then StrLess(a[1..], b[1..])
    else CharBefore(a[0], b[0])
  }

  lemma {:induction false} StrLessIrreflexive(a: string)
    ensures !StrLess(a, a)
    decreases |a|
  {
    if |a| > 0 {
      StrLessIrreflexive(a[1..]);
    }
  }

  lemma {:induction false} StrLessTransitive(a: string, b: string, c: string)
    requires StrLess(a, b) && StrLess(b, c)
    ensures StrLess(a, c)
    decreases |a|
  {
    if |a| > 0 && |b| > 0 && |c| > 0 && a[0] == b[0] && b[0] == c[0] {
      StrLessTransitive(a[1..], b[1..], c[1..]);
    }
  }

  lemma {:induction false} StrLessTotal(a: string, b: string)
    ensures a == b || StrLess(a, b) || StrLess(b, a)
    decreases |a|
  {
    if |a| > 0 && |b| > 0 && a[0] == b[0] {
      StrLessTotal(a[1..], b[1..]);
      if a[1..] == b[1..] {
        assert a == [a[0]] + a[1..] && b == [b[0]] + b[1..];
      }
    }
  }

  lemma StrLessAsymmetric(a: string, b: string)
    requires StrLess(a, b)
    ensures !StrLess(b, a)
  {
    if StrLess(b, a) {
      StrLessTransitive(a, b, a);
      StrLessIrreflexive(a);
    }
  }

  /** Strictly ascending, hence also free of duplicates. */
  predicate StrictlySorted(s: seq<string>) {
    forall i, j :: 0 <= i < j < |s| ==> StrLess(s[i], s[j])
  }

  /** Adds `t` to a strictly sorted list of distinct keys, keeping it strictly sorted. */
  function Insert(s: seq<string>, t: string): (r: seq<string>)
    requires StrictlySorted(s)
    ensures StrictlySorted(r)
    ensures forall x :: x in r <==> x in s || x == t
    decreases |s|
  {
    if |s| == 0 then [t]
    else if s[0] == t then s
    else
      StrLessTotal(t, s[0]);
      if StrLess(t, s[0]) then
        assert forall j :: 0 <= j < |s| ==> StrLess(t, s[j]) by {
          forall j | 0 < j < |s| ensures StrLess(t, s[j]) {
            StrLessTransitive(t, s[0], s[j]);
          }
        }
        [t] + s
      else
        var rest := Insert(s[1..], t);
        assert forall x :: x in rest ==> StrLess(s[0], x);
        [s[0]] + rest
  }

  /** Two strictly sorted lists holding the same strings are the same list. */
  lemma {:induction false} StrictlySortedUnique(a: seq<string>, b: seq<string>)
    requires StrictlySorted(a) && StrictlySorted(b)
    requires forall x :: x in a <==> x in b
    ensures a == b
    decreases |a|
  {
    assert |a| > 0 ==> a[0] in b;
    assert |b| > 0 ==> b[0] in a;
    if |a| > 0 {
      assert a[0] in a && b[0] in b;
      if a[0] != b[0] {
        var i :| 0 <= i < |b| && b[i] == a[0];
        var j :| 0 <= j < |a| && a[j] == b[0];
        assert 0 < i && 0 < j;
        StrLessAsymmetric(b[0], a[0]);
      }
      forall x ensures x in a[1..] <==> x in b[1..] {
        if x in a[1..] {
          var j :| 1 <= j < |a| && a[j] == x;
          assert StrLess(a[0], x) && x in a;
          StrLessIrreflexive(x);
          var i :| 0 <= i < |b| && b[i] == x;
          assert i != 0;
        }
        if x in b[1..] {
          var j :| 1 <= j < |b| && b[j] == x;
          assert StrLess(b[0], x) && x in b;
          StrLessIrreflexive(x);
          var i :| 0 <= i < |a| && a[i] == x;
          assert i != 0;
        }
      }
      StrictlySortedUnique(a[1..], b[1..]);
      assert a == [a[0]] + a[1..] && b == [b[0]] + b[1..];
    }
  }
}

=== FILE: widget.dfy ===
/**
 * The floating editor widget of content.js (`createRatingUI`): five star
 * controls and a tag input over one in-memory working copy of the record
 * bound to the page's own address. Every edit writes the whole record.
 */
module Widget {
  import opened Codec
  import opened Tags

  /** The five rating controls, valued 1 to 5. */
  type Star = k: int | 1 <= k <= 5 witness 1

  /** The star values, in the order the controls are created. */
  const Stars: seq<int> := [1, 2, 3, 4, 5]

  /** The stars that should carry the "active" mark for `rating`: the one equal to it, if any. */
  function ActiveStars(rating: int): set<int> {
    if 1 <= rating <= 5 then {rating} else {}
  }

  /**
   * The widget's state: the bound address, the working copy of the record,
   * which stars are marked active, whether the tag button is marked active,
   * whether the tag input is shown, and the input's current text.
   */
  datatype Widget = Widget(url: string, rec: Record, active: set<int>, tagActive: bool,
                           inputVisible: bool, input: string)

  /** A user action on the widget. `KeyDown` carries the key name; only "Enter" commits. */
  datatype Event = ClickStar(k: Star) | ClickTagButton | Type(text: string) | KeyDown(key: string)

  /** A `saveData(url, record)` call. */
  datatype Write = Write(url: string, rec: Record)

  /** The marks shown agree with the working copy. */
  predicate Consistent(w: Widget) {
    w.active == ActiveStars(w.rec.rating) && w.tagActive == (|w.rec.tags| > 0)
  }

  /**
   * Building the widget for a fetched record: each star `k` in 1..5 is
   * marked when the rating equals `k`, the tag button is marked when there
   * are tags, and the hidden input is prefilled with the tags joined by ", ".
   */
  function Mount(url: string, rec: Record): (w: Widget)
    ensures Consistent(w)
    ensures w.url == url && w.rec == rec && !w.inputVisible
    ensures w.input == JoinTags(rec.tags)
  {
    Widget(url, rec, set k | k in Stars && rec.rating == k, |rec.tags| > 0, false, JoinTags(rec.tags))
  }

  /** One user action: the new state and the write it issues, if any. */
  function Step(w: Widget, e: Event): (r: (Widget, seq<Write>))
    ensures r.0.url == w.url
    ensures Consistent(w) ==> Consistent(r.0)
    ensures |r.1| <= 1
    ensures |r.1| == 1 ==> r.1[0] == Write(w.url, r.0.rec)
    ensures |r.1| == 0 ==> r.0.rec == w.rec
  {
    match e
    case ClickStar(k) =>
      if w.rec.rating == k then
        // Unrate: clear every mark.
        var w' := w.(rec := w.rec.(rating := 0), active := {});
        (w', [Write(w.url, w'.rec)])
      else
        // Rate: clear every mark, then mark star k.
        var w' := w.(rec := w.rec.(rating := k), active := {} + {k});
        (w', [Write(w.url, w'.rec)])
    case ClickTagButton =>
      (w.(inputVisible := !w.inputVisible), [])
    case Type(text) =>
      (w.(input := text), [])
    case KeyDown(key) =>
      if key == "Enter" then
        var tags := ParseTags(w.input);
        var w' := w.(rec := w.rec.(tags := tags), inputVisible := false, tagActive := |tags| > 0);
        (w', [Write(w.url, w'.rec)])
      else (w, [])
  }

  /**
   * Star toggle: clicking star k unrates when the rating is already k and
   * rates k otherwise, leaving the tags alone; afterwards exactly the star
   * equal to the new rating is marked.
   */
  lemma StarToggle(w: Widget, k: Star)
    requires Consistent(w)
    ensures var (w', ws) := Step(w, ClickStar(k));
            && w'.rec == Record(if w.rec.rating == k then 0 else k, w.rec.tags)
            && w'.active == (if w.rec.rating == k then {} else {k})
            && Consistent(w')
            && ws == [Write(w.url, w'.rec)]
  {
  }

  /** Clicking the same star twice restores a rating of k, and otherwise leaves the page unrated. */
  lemma StarTwice(w: Widget, k: Star)
    ensures var w2 := Step(Step(w, ClickStar(k)).0, ClickStar(k)).0;
            w2.rec == w.rec.(rating := if w.rec.rating == k then k else 0)
  {
  }

  /**
   * Committing replaces the tags (never merges) with the cleaned tokens of
   * the input, keeps the rating, hides the input, writes the whole record
   * and marks the tag button exactly when tags remain.
   */
  lemma CommitReplacesTags(w: Widget)
    requires Consistent(w)
    ensures var (w', ws) := Step(w, KeyDown("Enter"));
            && w'.rec == Record(w.rec.rating, ParseTags(w.input))
            && ValidTags(w'.rec.tags)
            && !w'.inputVisible
            && w'.tagActive == (|ParseTags(w.input)| > 0)
            && Consistent(w')
            && ws == [Write(w.url, w'.rec)]
  {
  }

  /**
   * Opening the widget, showing the tag input and pressing Enter in it
   * untouched rewrites the same record and hides the input again.
   */
  lemma MountCommitRoundTrip(url: string, rec: Record)
    requires ValidTags(rec.tags)
    ensures var (w, ws) := Run(Mount(url, rec), [ClickTagButton, KeyDown("Enter")]);
            w.rec == rec && !w.inputVisible && ws == [Write(url, rec)]
  {
    TagsRoundTrip(rec.tags);
  }

  /** A sequence of user actions, with the writes in the order they are issued. */
  function Run(w: Widget, events: seq<Event>): (r: (Widget, seq<Write>))
    ensures r.0.url == w.url
    ensures Consistent(w) ==> Consistent(r.0)
    ensures forall i :: 0 <= i < |r.1| ==> r.1[i].url == w.url
    ensures |r.1| == 0 ==> r.0.rec == w.rec
    ensures |r.1| > 0 ==> r.1[|r.1| - 1] == Write(w.url, r.0.rec)
    decreases |events|
  {
    if |events| == 0 then (w, [])
    else
      var (w1, ws1) := Step(w, events[0]);
      var (w2, ws2) := Run(w1, events[1..]);
      WritesConcat(ws1, ws2, w.url);
      (w2, ws1 + ws2)
  }

  /** Writes to one address, followed by more writes to it, are all writes to it. */
  lemma WritesConcat(ws1: seq<Write>, ws2: seq<Write>, url: string)
    requires forall i :: 0 <= i < |ws1| ==> ws1[i].url == url
    requires forall i :: 0 <= i < |ws2| ==> ws2[i].url == url
    ensures forall i :: 0 <= i < |ws1 + ws2| ==> (ws1 + ws2)[i].url == url
    ensures |ws2| > 0 ==> (ws1 + ws2)[|ws1 + ws2| - 1] == ws2[|ws2| - 1]
    ensures |ws2| == 0 ==> ws1 + ws2 == ws1
  {
  }

  /**
   * Whatever the user does after the widget is built, star k is marked
   * exactly when the working rating equals k, and the tag button exactly
   * when the working copy has tags.
   */
  lemma MarksAfterRun(url: string, rec: Record, events: seq<Event>)
    ensures var w := Run(Mount(url, rec), events).0;
            && (forall k :: k in Stars ==> (k in w.active <==> w.rec.rating == k))
            && (w.tagActive <==> |w.rec.tags| > 0)
  {
  }

  /** The writes reaching the store through `saveData`, in order; with a dead context each one is dropped. */
  function ApplyWrites(store: map<string, Raw>, alive: bool, ws: seq<Write>): (store': map<string, Raw>)
    ensures !alive ==> store' == store
    ensures alive && |ws| > 0 ==> Parse(Lookup(store', ws[|ws| - 1].url)) == ws[|ws| - 1].rec
    ensures forall u :: (forall i :: 0 <= i < |ws| ==> ws[i].url != u) ==> Lookup(store', u) == Lookup(store, u)
    decreases |ws|
  {
    if |ws| == 0 then store
    else ApplyWrites(SaveData(store, alive, ws[0].url, ws[0].rec), alive, ws[1..])
  }

  /**
   * Once the context is invalidated part-way through a series of saves, the
   * later saves are lost: the store is what the earlier saves left.
   */
  lemma InvalidatedMidSession(store: map<string, Raw>, ws: seq<Write>, n: nat)
    requires n <= |ws|
    ensures ApplyWrites(ApplyWrites(store, true, ws[..n]), false, ws[n..]) == ApplyWrites(store, true, ws[..n])
  {
  }

  /**
   * After any session that wrote at least once, with the extension context
   * valid for the whole session, reading the bound address back gives the
   * widget's final working copy, and no other address changed.
   */
  lemma StoreReflectsWidget(store: map<string, Raw>, w: Widget, events: seq<Event>)
    requires |Run(w, events).1| > 0
    ensures var (w', ws) := Run(w, events);
            Parse(Lookup(ApplyWrites(store, true, ws), w.url)) == w'.rec
    ensures var ws := Run(w, events).1;
            forall u :: u != w.url ==> Lookup(ApplyWrites(store, true, ws), u) == Lookup(store, u)
  {
  }
}

=== FILE: wrappers.dfy ===
/** Option and Result, shared by the other modules. */
module Wrappers {

  /** An optional value: used for JavaScript's `undefined`/`null` fields and for lookups that can miss. */
  datatype Option<+T> = None | Some(value: T) {

    /** The wrapped value, or `default` when there is none (JavaScript's `x || default` agrees with it only when no present value is falsy; for the defaults used here, `0` and `[]`, a present `0` gives `0` either way). */
    function GetOr(default: T): T {
      match this
      case Some(v) => v
      case None => default
    }
  }

  /** A computation that either produced a value or raised an error. */
  datatype Result<+R, +E> = Success(value: R) | Failure(error: E)
}
